=== FILE: README.md ===
# Input auto-switcher: switching engine and rule store

This project is a Dafny model of the core of a macOS menu-bar app. The app
selects a keyboard input source whenever another application becomes
frontmost. It has two parts:

- **`MappingStore`** (`mapping_store.dfy`) holds the user's settings:
  - the master switch (`isEnabled`);
  - the global lock (`isGlobalLocked`, `lockedInputSourceID`);
  - the application filter (`filterMode` with `filteredBundleIDs`);
  - the ordered per-app rules (`mappings`).

  Each mutator of the store is a pure function from store to store.
- **`InputSwitcherService`** (`switcher.dfy`) is the switching engine. It
  holds:
  - the published context (current app, current input source, last switch
    time, the switch "signal", the last error);
  - the newest-first log, which keeps at most 80 entries;
  - the `started` latch of `start(with:)`.

  It has one function that asks the OS to select a source
  (`SwitchInputSource`). It decides what to do on each application
  activation (`HandleActivation`, in branch helpers `HandleLocked` and
  `HandleRules`). `Run` replays a sequence of activations in delivery order.

The operating system is not called. Every engine operation that reads the OS
receives an `Os` snapshot, which holds:

- the set of enabled input-source ids;
- the status the next select call returns;
- the current source as read back;
- the frontmost application;
- the clock.

Every operation that may select returns the list of ids it passed to the
select call, in `selects`. That list is the observable side effect: "no
select was issued" is `selects == []`. `Date()` is the snapshot's clock.
Each fresh `UUID()` is drawn from a counter: `nextToken` for switch signals
and log entries, and `nextMappingId` for rules.

Support modules:

- `text.dfy` holds whitespace trimming and the decimal rendering of status
  codes.
- `optional.dfy` holds `Option`.

The properties that span several calls live in:

- `mapping_store_properties.dfy`: lookup after upsert, app uniqueness, the
  move round trips, the filter's scope, order preservation on removal;
- `switcher_properties.dfy`: one lemma per activation branch, lock
  convergence, log capacity and ordering, the start latch, a worked
  Terminal scenario.

Behaviours of the code worth knowing:

- A blank source id makes `switchInputSource` return `false` without
  touching `lastError`. A rule with a blank source therefore logs whatever
  error an earlier switch left, or the generic failure message
  (`BlankRuleLogsStaleError`).
- After a successful switch, `handleActivation` overwrites the source that
  `switchInputSource` read back with the target id as written, untrimmed
  (`LockSwitches`, `RuleSwitches`).
- `upsertMapping` looks up the trimmed app id. The new source id is stored
  untrimmed.
- `mapping(for:)` compares untrimmed and takes the first match in rule order.

## Model

| member | source | states |
|---|---|---|
| Text.Trim | Sources/InputSwitcherService.swift:93 | trimming never lengthens the id, and a non-empty result starts and ends with a non-whitespace character |
| Text.TrimEmptyIffBlank | Sources/InputSwitcherService.swift:93-94 | an id trims to empty exactly when every character of it is whitespace, which is the `isEmpty` guard after trimming |
| Text.TrimPadded | Sources/MappingStore.swift:97 | surrounding an id that has no whitespace at its ends with whitespace of any length trims back to that id |
| Text.TrimIdempotent | Sources/MappingStore.swift:76-78 | trimming an already normalized id changes nothing, so a captured lock id is stable |
| Text.DecimalRoundTrip | Sources/InputSwitcherService.swift:106 | the decimal rendering of a status code, sign included, parses back to the same code |
| Text.DecimalInjective | Sources/InputSwitcherService.swift:106 | different status codes render to different decimal strings |
| SwitcherProperties.StatusMessageIdentifiesStatus | Sources/InputSwitcherService.swift:105-107 | the "switch failed, status" error message determines the status code it reports |
| MappingStore.FirstIndex | Sources/MappingStore.swift:100 | `firstIndex(where:)` returns the first position whose element satisfies the predicate, or nothing exactly when no element does |
| MappingStoreProperties.FirstIndexIs | Sources/MappingStore.swift:117 | a position that matches, with no match before it, is the one `firstIndex(where:)` finds |
| MappingStore.MappingFor | Sources/MappingStore.swift:83-85 | a rule is found exactly when some rule has that app id, and the rule found is one of the store's rules for that app |
| MappingStoreProperties.MappingForIsFirst | Sources/MappingStore.swift:83-85 | the lookup returns the first rule in list order whose app id equals the query |
| MappingStore.SetGlobalLock | Sources/MappingStore.swift:73-81 | the lock flag becomes the argument; enabling with a non-blank current source captures its trimmed form; disabling or a blank source keeps the old target; nothing else changes |
| MappingStore.AddEmptyMapping | Sources/MappingStore.swift:87-89 | one rule with empty app and source is appended, the earlier rules are kept in order, its id is fresh, and nothing else changes |
| MappingStore.AppendMapping | Sources/MappingStore.swift:103-108 | the appended rule carries the given ids and a UUID no earlier rule has; ids stay distinct |
| MappingStore.SetSource | Sources/MappingStore.swift:101 | only the source of the rule at the index changes; its id and app and every other rule are kept |
| MappingStore.UpsertMapping | Sources/MappingStore.swift:96-110 | a blank app id changes nothing; an existing trimmed app id has its first rule's source replaced in place; otherwise a rule with the trimmed app id is appended; rule ids stay fresh and distinct; nothing else changes |
| MappingStoreProperties.UpsertThenLookup | Sources/MappingStore.swift:96-110 | after an upsert with a non-blank app id, looking up the trimmed id returns a rule whose source is the one just given |
| MappingStoreProperties.UpdateSourceKeepsAppsUnique | Sources/MappingStore.swift:100-101 | replacing a rule's source keeps every non-blank app id on at most one rule |
| MappingStoreProperties.AppendNewAppKeepsAppsUnique | Sources/MappingStore.swift:102-108 | appending a rule for an app no rule has keeps non-blank app ids unique |
| MappingStoreProperties.UpsertKeepsAppsUnique | Sources/MappingStore.swift:96-110 | if no two rules share a non-blank app id before an upsert, none do after it |
| MappingStore.RemoveMapping | Sources/MappingStore.swift:112-114 | exactly the rules with another id remain, none with the removed id, ids stay fresh, and nothing else changes |
| MappingStoreProperties.RemoveAbsentMapping | Sources/MappingStore.swift:112-114 | removing an id no rule has leaves the store as it was |
| MappingStoreProperties.RemoveMappingKeepsOrder | Sources/MappingStore.swift:112-114 | removal commutes with splitting the list at any point, so the surviving rules keep their relative order |
| MappingStore.MoveMappingUp | Sources/MappingStore.swift:116-119 | the rules are permuted by swapping the first rule with that id and its predecessor; an absent id or one already first leaves the store unchanged |
| MappingStore.MoveMappingDown | Sources/MappingStore.swift:121-124 | the rules are permuted by swapping the first rule with that id and its successor; an absent id or one already last leaves the store unchanged |
| MappingStore.Swap | Sources/MappingStore.swift:118 | `swapAt` exchanges the two positions, keeps all others, and permutes the elements |
| MappingStoreProperties.CanMoveUpIffMoves | Sources/MappingStore.swift:126-129 | `canMoveUp` is true exactly when `moveMappingUp` would change the rules |
| MappingStoreProperties.CanMoveDownIffMoves | Sources/MappingStore.swift:131-134 | with distinct rule ids, `canMoveDown` is true exactly when `moveMappingDown` would change the rules |
| MappingStoreProperties.MoveDownThenUp | Sources/MappingStore.swift:116-124 | with distinct ids, moving a movable rule down and then up restores the store |
| MappingStoreProperties.MoveUpThenDown | Sources/MappingStore.swift:116-124 | with distinct ids, moving a movable rule up and then down restores the store |
| MappingStore.AddFilteredApp | Sources/MappingStore.swift:147-152 | a blank or already listed trimmed id changes nothing; otherwise the trimmed id is appended; afterwards it is listed; the list stays duplicate-free; nothing else changes |
| MappingStoreProperties.AddFilteredAppScope | Sources/MappingStore.swift:136-152 | after adding an app to the filter list, that app is handled unless the mode is blacklist |
| MappingStoreProperties.AddFilteredAppLeavesOthers | Sources/MappingStore.swift:147-152 | adding an app to the filter list does not change whether any other app is handled |
| MappingStore.RemoveFilteredApp | Sources/MappingStore.swift:154-156 | every occurrence of the id is gone, exactly the other entries remain, a duplicate-free list stays so, and nothing else changes |
| MappingStoreProperties.RemoveFilteredAppKeepsOrder | Sources/MappingStore.swift:154-156 | removal commutes with splitting the list, so the remaining entries keep their order |
| MappingStoreProperties.RemoveFilteredAppScope | Sources/MappingStore.swift:136-156 | removing one app from the filter list does not change whether any other app is handled |
| MappingStore.Filter | Sources/MappingStore.swift:113 | `removeAll(where:)` keeps exactly the elements the predicate spares and never grows the list |
| MappingStore.FilterConcat | Sources/MappingStore.swift:155 | filtering a concatenation is the concatenation of the filtered parts |
| MappingStoreProperties.FilterKeepsAll | Sources/MappingStore.swift:113 | a removal whose predicate spares every element returns the list unchanged |
| MappingStore.FilterNoDuplicates | Sources/MappingStore.swift:155 | filtering a duplicate-free list yields a duplicate-free list |
| MappingStore.FilterDistinctIds | Sources/MappingStore.swift:113 | filtering rules with distinct ids yields rules with distinct ids |
| InputSwitcherService.Initial | Sources/InputSwitcherService.swift:6-13 | a new service has an empty current app and source, no switch time, no error, an empty log and no observer, and satisfies the engine invariant |
| InputSwitcherService.RefreshCurrentContext | Sources/InputSwitcherService.swift:35-38 | the current app and current source become the frontmost app's bundle id and the read-back source, each `""` when unavailable; nothing else changes |
| InputSwitcherService.Start | Sources/InputSwitcherService.swift:21-33 | the first call refreshes the context and subscribes; a call on a started engine subscribes nothing and changes nothing |
| SwitcherProperties.StartSubscribesOnce | Sources/InputSwitcherService.swift:21-22 | a second `start` never subscribes again and leaves the engine as the first left it |
| InputSwitcherService.ClearLogs | Sources/InputSwitcherService.swift:87-89 | the log becomes empty and nothing else changes |
| InputSwitcherService.AddLog | Sources/InputSwitcherService.swift:199-213 | a fresh entry with the given fields and the current time goes to the front; the older entries follow in order, cut to keep at most 80; nothing else changes; fresh distinct entry ids are kept |
| SwitcherProperties.LogIsNewestFirst | Sources/InputSwitcherService.swift:199-209 | after two insertions the later entry is first and the earlier one second |
| SwitcherProperties.ClearThenAddLog | Sources/InputSwitcherService.swift:87-89 | after clearing, one insertion leaves a log holding only that entry |
| SwitcherProperties.LogNeverExceedsCapacity | Sources/InputSwitcherService.swift:210-212 | from a freshly started service, any sequence of activations leaves at most 80 log entries and issues no more selects than there are activations |
| InputSwitcherService.SwitchInputSource | Sources/InputSwitcherService.swift:92-115 | at most one select, issued exactly when the trimmed id is non-blank and enabled, and always for the trimmed id; the call succeeds exactly when a select was issued and returned `noErr`; a blank id changes nothing; a failure changes only `lastError`, to the not-found or status message; a success stamps the time, issues a new signal, reads back the source (falling back to the trimmed id) and clears the error |
| SwitcherProperties.RepeatedSwitchSelectsAgain | Sources/InputSwitcherService.swift:92-104 | a switch is not deduplicated: repeating it for an enabled id issues the select again |
| InputSwitcherService.LogAttempt | Sources/InputSwitcherService.swift:129-145 | after a switch attempt exactly one entry is logged for the target with the attempt's outcome; success puts the engine on the target as written with the success message; failure logs `lastError` or the fallback message; the switch time and signal are those the attempt left |
| InputSwitcherService.SkipAndLog | Sources/InputSwitcherService.swift:159-168 | a skip issues no select, refreshes the current source from the OS (keeping the old one when unreadable) and logs one successful entry carrying it; the switch time and signal are unchanged |
| InputSwitcherService.HandleLocked | Sources/InputSwitcherService.swift:125-155 | the lock branch issues at most one select, logs at most one entry, changes the switch time or signal only when a select returned `noErr`, and keeps the current app, the latch and the engine invariant |
| InputSwitcherService.HandleRules | Sources/InputSwitcherService.swift:157-196 | the rule branch issues at most one select, logs at most one entry, changes the switch time or signal only when a select returned `noErr`, and keeps the current app, the latch and the engine invariant |
| InputSwitcherService.HandleActivation | Sources/InputSwitcherService.swift:117-197 | a notification without a bundle id changes nothing; otherwise the current app becomes the bundle id, at most one select is issued, at most one entry is logged, the switch time and signal change only when a select returned `noErr`, and the engine invariant is kept |
| InputSwitcherService.Run | Sources/InputSwitcherService.swift:25-32 | notifications handled one after another issue no more selects than there are notifications, grow the log by no more entries than there are notifications, and keep the engine invariant |
| SwitcherProperties.RunSingle | Sources/InputSwitcherService.swift:29-31 | running no notification changes nothing, and running one notification is exactly handling it; with `RunConcat` this fixes the result of every run |
| SwitcherProperties.RunConcat | Sources/InputSwitcherService.swift:25-32 | notifications are handled in delivery order: handling `xs` and then `ys` is handling `xs + ys`, with the select calls of `xs` before those of `ys` |
| SwitcherProperties.NoBundleIDIsIgnored | Sources/InputSwitcherService.swift:118-121 | a notification without a running application's bundle id is ignored entirely |
| SwitcherProperties.LockWithoutTarget | Sources/InputSwitcherService.swift:125-127 | locked with an empty target: only the current app is recorded; no select, no log |
| SwitcherProperties.LockHeld | Sources/InputSwitcherService.swift:146-153 | locked and already on the target: no select, one successful "lock held" entry for the target; source, error, switch time and signal unchanged |
| SwitcherProperties.LockSwitches | Sources/InputSwitcherService.swift:129-145 | locked and off the target: one select for the trimmed target when it is enabled; the logged success flag is the switch's result; success puts the engine on the target with "lock applied" and no error; failure keeps the source, switch time and signal and logs `lastError` or "lock switch failed" |
| SwitcherProperties.LockIgnoresRules | Sources/InputSwitcherService.swift:125-155 | under the lock, two stores with the same target give the same outcome whatever their enabled flag, filter and rules |
| SwitcherProperties.LockConverges | Sources/InputSwitcherService.swift:125-155 | once the lock branch logs a success, the next activation under the same lock issues no select and logs "lock held" |
| SwitcherProperties.CapturedLockHolds | Sources/MappingStore.swift:73-81 | locking on the engine's current (normalized) source makes the next activation hold the lock without a select |
| SwitcherProperties.LockCapturesTrimmedSource | Sources/MappingStore.swift:73-81 | enabling the lock with an already normalized non-blank source stores that source as the target |
| SwitcherProperties.DisabledIsInert | Sources/InputSwitcherService.swift:157 | unlocked and disabled: only the current app is recorded; no select, no log |
| SwitcherProperties.OutsideFilterSkips | Sources/InputSwitcherService.swift:159-168 | an app outside the filter issues no select, refreshes the source and logs one successful "outside filter" entry carrying it; error, switch time and signal unchanged |
| SwitcherProperties.NoRuleSkips | Sources/InputSwitcherService.swift:170-179 | an app in scope without a rule issues no select, refreshes the source and logs one successful "no rule" entry carrying it; error, switch time and signal unchanged |
| SwitcherProperties.RuleSwitches | Sources/InputSwitcherService.swift:181-196 | an app with a rule gets exactly the rule's switch attempt, without deduplication against the current source; success puts the engine on the rule's source as written with "switched" and no error; failure keeps the source, switch time and signal and logs `lastError` or "switch failed" |
| SwitcherProperties.BlankRuleLogsStaleError | Sources/InputSwitcherService.swift:181-196 | a rule with a blank source issues no select, leaves `lastError` as it was and logs a failure carrying that earlier error |
| SwitcherProperties.TerminalScenario | Sources/InputSwitcherService.swift:181-188 | with Terminal mapped to the US layout and pinyin current, activating Terminal issues exactly one select for the US layout and ends on it |
| SwitcherProperties.TerminalScenarioLog | Sources/InputSwitcherService.swift:183-188 | in the same scenario one successful "switched" entry is logged |
| SwitcherProperties.TerminalRuleFound | Sources/MappingStore.swift:83-85 | in the Terminal scenario's store, Terminal is in scope and its rule names the US layout |

## Left out

- Persistence: the store's `UserDefaults` reads and writes, the JSON encoding of rules, and the defaults in `init`. A store is a plain value.
- The status-dot and switch-dot colour presets. They are display settings that no decision reads.
- `addMappingFromCurrentContext`. It reads the frontmost application from the OS and then only calls `upsertMapping`, which is modelled.
- `availableInputSources`, `inputSourceDisplayName`, `inputSourceIcon`, `appIcon` and the TIS property readers. They only serve the views; the OS snapshot's `enabledSources` stands in for the id-filtered source list.
- Notification registration, the `[weak self, weak store]` captures and `deinit`. `start` is modelled as the `started` latch. Delivery is the event sequence given to `Run`; a released store or service simply never delivers.
- Main-queue delivery and `@Published` change notifications. Events are handled one at a time.
- `Date()` and `UUID()`. They become the snapshot's clock and the two counters; one clock reading per call stands for the separate `Date()` calls.
- Text.Trim: `.whitespacesAndNewlines` is modelled as the Unicode White_Space characters, and strings are sequences of scalars rather than grapheme clusters.
- MappingStore.MappingFor: every string comparison is plain equality of scalar sequences, not Swift's `String ==` with canonical equivalence. This applies to rule lookup, `shouldHandle`, `removeFilteredApp` and the lock comparison at InputSwitcherService.swift:129. It makes no difference for reverse-DNS ids.
- InputSwitcherService.SwitchInputSource: the OSStatus is an unbounded integer, not a 32-bit value. Its decimal rendering is modelled directly.
- The SwiftUI views, the menu-bar icon renderer, app discovery and launch-at-login. They are not part of this model.

=== FILE: mapping_store.dfy ===
/**
 * The policy store (`MappingStore`) as a plain record: the enabled flag, the
 * global lock, the application filter and the ordered rule list, with the
 * list operations the settings window calls. Persistence is not modelled.
 */
module MappingStore {
  import opened Optional
  import opened Text

  datatype FilterMode = All | Whitelist | Blacklist

  /** One rule: application bundle id to input source id; `id` stands for the rule's UUID. */
  datatype Mapping = Mapping(id: nat, appBundleID: string, inputSourceID: string)

  /** `nextMappingId` is the supply of fresh rule UUIDs. */
  datatype Store = Store(
    isEnabled: bool,
    isGlobalLocked: bool,
    lockedInputSourceID: string,
    filterMode: FilterMode,
    filteredBundleIDs: seq<string>,
    mappings: seq<Mapping>,
    nextMappingId: nat)

  // ---------------------------------------------------------------------------
  // Sequence helpers

  /** Swift's `firstIndex(where:)`. */
  function FirstIndex<T>(s: seq<T>, p: T -> bool): (r: Option<nat>)
    ensures r.Some? ==> r.value < |s| && p(s[r.value])
    ensures r.Some? ==> forall k :: 0 <= k < r.value ==> !p(s[k])
    ensures r.None? <==> forall k :: 0 <= k < |s| ==> !p(s[k])
    decreases |s|
  {
    if s == [] then None
    else if p(s[0]) then Some(0)
    else match FirstIndex(s[1..], p)
      case None => None
      case Some(i) => Some(i + 1)
  }

  /** Swift's `removeAll(where: { !keep($0) })`. */
  function Filter<T(==,!new)>(s: seq<T>, keep: T -> bool): (r: seq<T>)
    ensures |r| <= |s|
    ensures forall x :: x in r <==> x in s && keep(x)
    decreases |s|
  {
    if s == [] then [] else (if keep(s[0]) then [s[0]] else []) + Filter(s[1..], keep)
  }

  /** Filtering keeps relative order: it distributes over concatenation. */
  lemma {:induction false} FilterConcat<T(!new)>(a: seq<T>, b: seq<T>, keep: T -> bool)
    ensures Filter(a + b, keep) == Filter(a, keep) + Filter(b, keep)
    decreases |a|
  {
    if a == [] {
      assert a + b == b;
    } else {
      assert (a + b)[1..] == a[1..] + b;
      FilterConcat(a[1..], b, keep);
    }
  }

  /** Exchanges two positions. */
  function Swap<T>(s: seq<T>, i: nat, j: nat): (r: seq<T>)
    requires i < |s| && j < |s|
    ensures |r| == |s|
    ensures r[i] == s[j] && r[j] == s[i]
    ensures forall k :: 0 <= k < |s| && k != i && k != j ==> r[k] == s[k]
    ensures multiset(r) == multiset(s)
  {
    s[i := s[j]][j := s[i]]
  }

  predicate NoDuplicates<T(==)>(s: seq<T>) {
    forall i, j :: 0 <= i < j < |s| ==> s[i] != s[j]
  }

  /** Filtering a list without duplicates leaves a list without duplicates. */
  lemma {:induction false} FilterNoDuplicates<T(!new)>(s: seq<T>, keep: T -> bool)
    ensures NoDuplicates(s) ==> NoDuplicates(Filter(s, keep))
    decreases |s|
  {
    if s != [] && NoDuplicates(s) {
      assert NoDuplicates(s[1..]);
      FilterNoDuplicates(s[1..], keep);
      assert s[0] !in s[1..];
    }
  }

  predicate DistinctIds(ms: seq<Mapping>) {
    forall i, j :: 0 <= i < j < |ms| ==> ms[i].id != ms[j].id
  }

  /** Rule UUIDs are pairwise distinct and all drawn from the fresh supply. */
  predicate IdsFresh(st: Store) {
    && (forall i :: 0 <= i < |st.mappings| ==> st.mappings[i].id < st.nextMappingId)
    && DistinctIds(st.mappings)
  }

  /** Filtering rules keeps their UUIDs distinct. */
  lemma {:induction false} FilterDistinctIds(ms: seq<Mapping>, keep: Mapping -> bool)
    ensures DistinctIds(ms) ==> DistinctIds(Filter(ms, keep))
    decreases |ms|
  {
    if ms != [] && DistinctIds(ms) {
      assert DistinctIds(ms[1..]);
      FilterDistinctIds(ms[1..], keep);
      var rest := Filter(ms[1..], keep);
      forall k | 0 <= k < |rest|
        ensures rest[k].id != ms[0].id
      {
        assert rest[k] in ms[1..];
        var j :| 0 <= j < |ms[1..]| && ms[1..][j] == rest[k];
        assert ms[j + 1] == rest[k];
      }
      assert Filter(ms, keep) == (if keep(ms[0]) then [ms[0]] else []) + rest;
    }
  }

  // ---------------------------------------------------------------------------
  // Lookup and filter

  function IndexOfApp(ms: seq<Mapping>, bundleID: string): Option<nat> {
    FirstIndex(ms, (m: Mapping) => m.appBundleID == bundleID)
  }

  function IndexOfId(ms: seq<Mapping>, id: nat): Option<nat> {
    FirstIndex(ms, (m: Mapping) => m.id == id)
  }

  /** `mapping(for:)`: the first rule for the bundle id, if any. */
  function MappingFor(st: Store, bundleID: string): (r: Option<Mapping>)
    ensures r.Some? <==> exists i :: 0 <= i < |st.mappings| && st.mappings[i].appBundleID == bundleID
    ensures r.Some? ==> r.value in st.mappings && r.value.appBundleID == bundleID
  {
    match IndexOfApp(st.mappings, bundleID)
    case None => None
    case Some(i) => Some(st.mappings[i])
  }

  /**
   * `shouldHandle(bundleID:)`: whether the filter lets the application take
   * part. `All` admits every app; `Whitelist` and `Blacklist` are complements
   * over the listed ids.
   */
  predicate ShouldHandle(st: Store, bundleID: string) {
    match st.filterMode
    case All => true
    case Whitelist => bundleID in st.filteredBundleIDs
    case Blacklist => bundleID !in st.filteredBundleIDs
  }

  // ---------------------------------------------------------------------------
  // Mutations

  /** `setGlobalLock(_:currentInputSourceID:)`: turning the lock on captures the trimmed current source, if any. */
  function SetGlobalLock(st: Store, enabled: bool, currentInputSourceID: string): (r: Store)
    ensures r.isGlobalLocked == enabled
    ensures enabled && Trim(currentInputSourceID) != "" ==>
      r.lockedInputSourceID == Trim(currentInputSourceID)
    ensures !enabled || Trim(currentInputSourceID) == "" ==> r.lockedInputSourceID == st.lockedInputSourceID
    ensures r.(isGlobalLocked := st.isGlobalLocked, lockedInputSourceID := st.lockedInputSourceID) == st
  {
    var normalized := Trim(currentInputSourceID);
    st.(isGlobalLocked := enabled,
        lockedInputSourceID := if enabled && normalized != "" then normalized else st.lockedInputSourceID)
  }

  /** Appends a rule with a fresh UUID. */
  function AppendMapping(st: Store, appBundleID: string, inputSourceID: string): (r: Store)
    ensures |r.mappings| == |st.mappings| + 1 && r.mappings[..|st.mappings|] == st.mappings
    ensures r.mappings[|st.mappings|].appBundleID == appBundleID
    ensures r.mappings[|st.mappings|].inputSourceID == inputSourceID
    ensures IdsFresh(st) ==> IdsFresh(r) && IndexOfId(st.mappings, r.mappings[|st.mappings|].id).None?
    ensures r.(mappings := st.mappings, nextMappingId := st.nextMappingId) == st
  {
    var ms := st.mappings + [Mapping(st.nextMappingId, appBundleID, inputSourceID)];
    assert ms[..|st.mappings|] == st.mappings;
    st.(mappings := ms, nextMappingId := st.nextMappingId + 1)
  }

  /** `addEmptyMapping()`: appends a blank rule with a fresh UUID. */
  function AddEmptyMapping(st: Store): (r: Store)
    ensures |r.mappings| == |st.mappings| + 1 && r.mappings[..|st.mappings|] == st.mappings
    ensures r.mappings[|st.mappings|].appBundleID == "" && r.mappings[|st.mappings|].inputSourceID == ""
    ensures IdsFresh(st) ==> IdsFresh(r) && IndexOfId(st.mappings, r.mappings[|st.mappings|].id).None?
    ensures r.(mappings := st.mappings, nextMappingId := st.nextMappingId) == st
  {
    AppendMapping(st, "", "")
  }

  /** Replaces the source of the rule at position `i`, keeping its UUID and bundle id. */
  function SetSource(st: Store, i: nat, inputSourceID: string): (r: Store)
    requires i < |st.mappings|
    ensures |r.mappings| == |st.mappings|
    ensures r.mappings[i] == st.mappings[i].(inputSourceID := inputSourceID)
    ensures forall k :: 0 <= k < |st.mappings| && k != i ==> r.mappings[k] == st.mappings[k]
    ensures IdsFresh(st) ==> IdsFresh(r)
    ensures r.(mappings := st.mappings) == st
  {
    var ms := st.mappings[i := st.mappings[i].(inputSourceID := inputSourceID)];
    assert forall k :: 0 <= k < |ms| ==> ms[k].id == st.mappings[k].id;
    st.(mappings := ms)
  }

  /**
   * `upsertMapping(appBundleID:inputSourceID:)`: a blank bundle id is ignored;
   * otherwise the first rule for the trimmed id gets the new source, or a new
   * rule is appended. The source id is stored as given, untrimmed.
   */
  function UpsertMapping(st: Store, appBundleID: string, inputSourceID: string): (r: Store)
    ensures Trim(appBundleID) == "" ==> r == st
    ensures Trim(appBundleID) != "" && IndexOfApp(st.mappings, Trim(appBundleID)).Some? ==>
      var i := IndexOfApp(st.mappings, Trim(appBundleID)).value;
      && |r.mappings| == |st.mappings|
      && r.mappings[i] == st.mappings[i].(inputSourceID := inputSourceID)
      && (forall k :: 0 <= k < |st.mappings| && k != i ==> r.mappings[k] == st.mappings[k])
    ensures Trim(appBundleID) != "" && IndexOfApp(st.mappings, Trim(appBundleID)).None? ==>
      && |r.mappings| == |st.mappings| + 1
      && r.mappings[..|st.mappings|] == st.mappings
      && r.mappings[|st.mappings|].appBundleID == Trim(appBundleID)
      && r.mappings[|st.mappings|].inputSourceID == inputSourceID
    ensures IdsFresh(st) ==> IdsFresh(r)
    ensures r.(mappings := st.mappings, nextMappingId := st.nextMappingId) == st
  {
    var key := Trim(appBundleID);
    if key == "" then st
    else match IndexOfApp(st.mappings, key)
      case Some(i) => SetSource(st, i, inputSourceID)
      case None => AppendMapping(st, key, inputSourceID)
  }

  function WithoutId(ms: seq<Mapping>, id: nat): seq<Mapping> {
    Filter(ms, (m: Mapping) => m.id != id)
  }

  /** `removeMapping(id:)`: drops every rule with that UUID. */
  function RemoveMapping(st: Store, id: nat): (r: Store)
    ensures forall m :: m in r.mappings <==> m in st.mappings && m.id != id
    ensures IndexOfId(r.mappings, id).None?
    ensures IdsFresh(st) ==> IdsFresh(r)
    ensures r.(mappings := st.mappings) == st
  {
    var ms := WithoutId(st.mappings, id);
    assert forall i :: 0 <= i < |ms| ==> ms[i] in st.mappings;
    FilterDistinctIds(st.mappings, (m: Mapping) => m.id != id);
    st.(mappings := ms)
  }

  /** `moveMappingUp(id:)`: swaps the rule with its predecessor, unless it is absent or first. */
  function MoveMappingUp(st: Store, id: nat): (r: Store)
    ensures multiset(r.mappings) == multiset(st.mappings) && |r.mappings| == |st.mappings|
    ensures r.(mappings := st.mappings) == st
    ensures IndexOfId(st.mappings, id).None? || IndexOfId(st.mappings, id).value == 0 ==> r == st
    ensures IndexOfId(st.mappings, id).Some? && IndexOfId(st.mappings, id).value > 0 ==>
      var i := IndexOfId(st.mappings, id).value;
      && r.mappings[i - 1] == st.mappings[i] && r.mappings[i] == st.mappings[i - 1]
      && (forall k :: 0 <= k < |st.mappings| && k != i && k != i - 1 ==> r.mappings[k] == st.mappings[k])
  {
    match IndexOfId(st.mappings, id)
    case Some(i) => if i > 0 then st.(mappings := Swap(st.mappings, i, i - 1)) else st
    case None => st
  }

  /** `moveMappingDown(id:)`: swaps the rule with its successor, unless it is absent or last. */
  function MoveMappingDown(st: Store, id: nat): (r: Store)
    ensures multiset(r.mappings) == multiset(st.mappings) && |r.mappings| == |st.mappings|
    ensures r.(mappings := st.mappings) == st
    ensures IndexOfId(st.mappings, id).None? || IndexOfId(st.mappings, id).value == |st.mappings| - 1 ==> r == st
    ensures IndexOfId(st.mappings, id).Some? && IndexOfId(st.mappings, id).value < |st.mappings| - 1 ==>
      var i := IndexOfId(st.mappings, id).value;
      && r.mappings[i + 1] == st.mappings[i] && r.mappings[i] == st.mappings[i + 1]
      && (forall k :: 0 <= k < |st.mappings| && k != i && k != i + 1 ==> r.mappings[k] == st.mappings[k])
  {
    match IndexOfId(st.mappings, id)
    case Some(i) => if i < |st.mappings| - 1 then st.(mappings := Swap(st.mappings, i, i + 1)) else st
    case None => st
  }

  predicate CanMoveUp(st: Store, id: nat) {
    match IndexOfId(st.mappings, id)
    case Some(i) => i > 0
    case None => false
  }

  predicate CanMoveDown(st: Store, id: nat) {
    match IndexOfId(st.mappings, id)
    case Some(i) => i < |st.mappings| - 1
    case None => false
  }

  /** `addFilteredApp(bundleID:)`: appends the trimmed id unless it is blank or already listed. */
  function AddFilteredApp(st: Store, bundleID: string): (r: Store)
    ensures Trim(bundleID) == "" || Trim(bundleID) in st.filteredBundleIDs ==> r == st
    ensures Trim(bundleID) != "" && Trim(bundleID) !in st.filteredBundleIDs ==>
      r.filteredBundleIDs == st.filteredBundleIDs + [Trim(bundleID)]
    ensures Trim(bundleID) != "" ==> Trim(bundleID) in r.filteredBundleIDs
    ensures NoDuplicates(st.filteredBundleIDs) ==> NoDuplicates(r.filteredBundleIDs)
    ensures r.(filteredBundleIDs := st.filteredBundleIDs) == st
  {
    var normalized := Trim(bundleID);
    if normalized == "" || normalized in st.filteredBundleIDs then st
    else st.(filteredBundleIDs := st.filteredBundleIDs + [normalized])
  }

  function Without(s: seq<string>, x: string): seq<string> {
    Filter(s, (y: string) => y != x)
  }

  /** `removeFilteredApp(bundleID:)`: drops every occurrence of the id, as given. */
  function RemoveFilteredApp(st: Store, bundleID: string): (r: Store)
    ensures bundleID !in r.filteredBundleIDs
    ensures forall y :: y in r.filteredBundleIDs <==> y in st.filteredBundleIDs && y != bundleID
    ensures NoDuplicates(st.filteredBundleIDs) ==> NoDuplicates(r.filteredBundleIDs)
    ensures r.(filteredBundleIDs := st.filteredBundleIDs) == st
  {
    FilterNoDuplicates(st.filteredBundleIDs, (y: string) => y != bundleID);
    st.(filteredBundleIDs := Without(st.filteredBundleIDs, bundleID))
  }
}

=== FILE: mapping_store_properties.dfy ===
/** Properties relating several MappingStore operations to each other. */
module MappingStoreProperties {
  import opened Optional
  import opened Text
  import opened MappingStore

  /** FirstIndex finds exactly the first position satisfying the predicate. */
  lemma FirstIndexIs<T>(s: seq<T>, p: T -> bool, i: nat)
    requires i < |s| && p(s[i])
    requires forall k :: 0 <= k < i ==> !p(s[k])
    ensures FirstIndex(s, p) == Some(i)
  {
    assert FirstIndex(s, p).Some?;
  }

  /** `mapping(for:)` returns the rule at the first position whose bundle id matches. */
  lemma MappingForIsFirst(st: Store, bundleID: string, i: nat)
    requires i < |st.mappings| && st.mappings[i].appBundleID == bundleID
    requires forall k :: 0 <= k < i ==> st.mappings[k].appBundleID != bundleID
    ensures MappingFor(st, bundleID) == Some(st.mappings[i])
  {
    FirstIndexIs(st.mappings, (m: Mapping) => m.appBundleID == bundleID, i);
  }

  /** After an upsert for a non-blank bundle id, looking that id up yields the new source. */
  lemma UpsertThenLookup(st: Store, appBundleID: string, inputSourceID: string)
    requires !IsBlank(appBundleID)
    ensures var r := UpsertMapping(st, appBundleID, inputSourceID);
      && MappingFor(r, Trim(appBundleID)).Some?
      && MappingFor(r, Trim(appBundleID)).value.inputSourceID == inputSourceID
  {
    TrimEmptyIffBlank(appBundleID);
    var key := Trim(appBundleID);
    var r := UpsertMapping(st, appBundleID, inputSourceID);
    match IndexOfApp(st.mappings, key)
    case Some(i) =>
      MappingForIsFirst(r, key, i);
    case None =>
      MappingForIsFirst(r, key, |st.mappings|);
  }

  /** No two rules share a non-blank bundle id (blank rules come from `addEmptyMapping`). */
  predicate UniqueApps(ms: seq<Mapping>) {
    forall i, j :: 0 <= i < j < |ms| && ms[i].appBundleID != "" ==> ms[i].appBundleID != ms[j].appBundleID
  }

  lemma UpdateSourceKeepsAppsUnique(ms: seq<Mapping>, i: nat, inputSourceID: string)
    requires i < |ms| && UniqueApps(ms)
    ensures UniqueApps(ms[i := ms[i].(inputSourceID := inputSourceID)])
  {
    var ms' := ms[i := ms[i].(inputSourceID := inputSourceID)];
    assert forall k :: 0 <= k < |ms'| ==> ms'[k].appBundleID == ms[k].appBundleID;
  }

  lemma AppendNewAppKeepsAppsUnique(ms: seq<Mapping>, m: Mapping)
    requires UniqueApps(ms)
    requires forall k :: 0 <= k < |ms| ==> ms[k].appBundleID != m.appBundleID
    ensures UniqueApps(ms + [m])
  {
  }

  /** Upsert never introduces a second rule for a bundle id. */
  lemma UpsertKeepsAppsUnique(st: Store, appBundleID: string, inputSourceID: string)
    requires UniqueApps(st.mappings)
    ensures UniqueApps(UpsertMapping(st, appBundleID, inputSourceID).mappings)
  {
    var key := Trim(appBundleID);
    if key != "" {
      match IndexOfApp(st.mappings, key)
      case Some(i) =>
        UpdateSourceKeepsAppsUnique(st.mappings, i, inputSourceID);
      case None =>
        AppendNewAppKeepsAppsUnique(st.mappings, Mapping(st.nextMappingId, key, inputSourceID));
    }
  }

  /** Filtering keeps a list whose every element passes. */
  lemma {:induction false} FilterKeepsAll<T(!new)>(s: seq<T>, keep: T -> bool)
    requires forall k :: 0 <= k < |s| ==> keep(s[k])
    ensures Filter(s, keep) == s
    decreases |s|
  {
    if s != [] {
      FilterKeepsAll(s[1..], keep);
      assert s == [s[0]] + s[1..];
    }
  }

  /** Removing an absent UUID changes nothing. */
  lemma RemoveAbsentMapping(st: Store, id: nat)
    requires IndexOfId(st.mappings, id).None?
    ensures RemoveMapping(st, id) == st
  {
    FilterKeepsAll(st.mappings, (m: Mapping) => m.id != id);
  }

  /**
   * Removal keeps relative order: the survivors from before any cut point
   * still precede the survivors from after it.
   */
  lemma RemoveMappingKeepsOrder(st: Store, id: nat, cut: nat)
    requires cut <= |st.mappings|
    ensures RemoveMapping(st, id).mappings
         == RemoveMapping(st.(mappings := st.mappings[..cut]), id).mappings
          + RemoveMapping(st.(mappings := st.mappings[cut..]), id).mappings
  {
    assert st.mappings == st.mappings[..cut] + st.mappings[cut..];
    FilterConcat(st.mappings[..cut], st.mappings[cut..], (m: Mapping) => m.id != id);
  }

  /** `removeFilteredApp` keeps the remaining ids in their order. */
  lemma RemoveFilteredAppKeepsOrder(st: Store, bundleID: string, cut: nat)
    requires cut <= |st.filteredBundleIDs|
    ensures RemoveFilteredApp(st, bundleID).filteredBundleIDs
         == RemoveFilteredApp(st.(filteredBundleIDs := st.filteredBundleIDs[..cut]), bundleID).filteredBundleIDs
          + RemoveFilteredApp(st.(filteredBundleIDs := st.filteredBundleIDs[cut..]), bundleID).filteredBundleIDs
  {
    assert st.filteredBundleIDs == st.filteredBundleIDs[..cut] + st.filteredBundleIDs[cut..];
    FilterConcat(st.filteredBundleIDs[..cut], st.filteredBundleIDs[cut..], (y: string) => y != bundleID);
  }

  /** `canMoveUp` is true exactly when `moveMappingUp` changes the store. */
  lemma CanMoveUpIffMoves(st: Store, id: nat)
    ensures CanMoveUp(st, id) <==> MoveMappingUp(st, id) != st
  {
    if CanMoveUp(st, id) {
      var i := IndexOfId(st.mappings, id).value;
      assert st.mappings[i - 1].id != id;
      assert MoveMappingUp(st, id).mappings[i] != st.mappings[i];
    }
  }

  /** `canMoveDown` is true exactly when `moveMappingDown` changes the store. */
  lemma CanMoveDownIffMoves(st: Store, id: nat)
    requires DistinctIds(st.mappings)
    ensures CanMoveDown(st, id) <==> MoveMappingDown(st, id) != st
  {
    if CanMoveDown(st, id) {
      var i := IndexOfId(st.mappings, id).value;
      assert st.mappings[i + 1].id != id;
      assert MoveMappingDown(st, id).mappings[i] != st.mappings[i];
    }
  }

  /** Moving a rule down and then up again restores the store. */
  lemma MoveDownThenUp(st: Store, id: nat)
    requires DistinctIds(st.mappings) && CanMoveDown(st, id)
    ensures MoveMappingUp(MoveMappingDown(st, id), id) == st
  {
    var i := IndexOfId(st.mappings, id).value;
    var mid := MoveMappingDown(st, id);
    FirstIndexIs(mid.mappings, (m: Mapping) => m.id == id, i + 1);
    assert MoveMappingUp(mid, id).mappings == st.mappings;
  }

  /** Moving a rule up and then down again restores the store. */
  lemma MoveUpThenDown(st: Store, id: nat)
    requires DistinctIds(st.mappings) && CanMoveUp(st, id)
    ensures MoveMappingDown(MoveMappingUp(st, id), id) == st
  {
    var i := IndexOfId(st.mappings, id).value;
    var mid := MoveMappingUp(st, id);
    FirstIndexIs(mid.mappings, (m: Mapping) => m.id == id, i - 1);
    assert MoveMappingDown(mid, id).mappings == st.mappings;
  }

  /** After `addFilteredApp`, the trimmed id is in scope exactly when the mode is not blacklist. */
  lemma AddFilteredAppScope(st: Store, bundleID: string)
    requires !IsBlank(bundleID)
    ensures ShouldHandle(AddFilteredApp(st, bundleID), Trim(bundleID)) <==> st.filterMode != Blacklist
  {
    TrimEmptyIffBlank(bundleID);
  }

  /** `addFilteredApp` does not change how any other id is filtered. */
  lemma AddFilteredAppLeavesOthers(st: Store, bundleID: string, other: string)
    requires other != Trim(bundleID)
    ensures ShouldHandle(AddFilteredApp(st, bundleID), other) <==> ShouldHandle(st, other)
  {
    AppendKeepsOthers(st.filteredBundleIDs, Trim(bundleID), other);
  }

  lemma AppendKeepsOthers(xs: seq<string>, key: string, other: string)
    requires other != key
    ensures other in xs + [key] <==> other in xs
  {
  }

  /** After `removeFilteredApp`, the whitelist rejects the id and the blacklist admits it; no other id is affected. */
  lemma RemoveFilteredAppScope(st: Store, bundleID: string, other: string)
    requires other != bundleID
    ensures var r := RemoveFilteredApp(st, bundleID);
      && (st.filterMode == Whitelist ==> !ShouldHandle(r, bundleID))
      && (st.filterMode != Whitelist ==> ShouldHandle(r, bundleID))
      && (ShouldHandle(r, other) <==> ShouldHandle(st, other))
  {
  }
}

=== FILE: optional.dfy ===
/** An optional value, the model of Swift's `T?`. */
module Optional {

  datatype Option<+T> = None | Some(value: T) {

    /** Swift's `x ?? fallback`: the wrapped value, or `fallback` when absent. */
    function GetOr(fallback: T): T {
      match this
      case Some(v) => v
      case None => fallback
    }
  }
}

=== FILE: switcher.dfy ===
/**
 * The switching engine (`InputSwitcherService`): published context, the
 * bounded newest-first log, the one function that asks the OS to select an
 * input source, and the decision taken on each application activation.
 *
 * The OS is a snapshot value `Os` handed to every operation that reads the OS;
 * `Date()` is its
 * clock `now`, and `UUID()` draws from the engine's counter `nextToken`.
 */
module InputSwitcherService {
  import opened Optional
  import opened Text
  import opened MappingStore

  const LogCapacity: nat := 80
  /** Carbon's `noErr`. */
  const NoErr: int := 0

  const LockAppliedMessage: string := "全局锁定生效"
  const LockFailedMessage: string := "全局锁定切换失败"
  const LockHeldMessage: string := "全局锁定保持"
  const OutsideFilterMessage: string := "跳过：不在当前过滤范围"
  const NoRuleMessage: string := "跳过：未配置规则"
  const SwitchedMessage: string := "切换成功"
  const SwitchFailedMessage: string := "切换失败"

  /** `lastError` when no enabled input source has the id. */
  function NotFoundMessage(sourceID: string): string {
    "找不到输入法：" + sourceID
  }

  /** `lastError` when `TISSelectInputSource` returns a non-zero status. */
  function StatusMessage(status: int): string {
    "切换失败，状态码：" + DecimalString(status)
  }

  /**
   * What the OS answers during one call: the ids of the enabled input sources
   * (`TISCreateInputSourceList` with an id filter), the status the next
   * `TISSelectInputSource` returns, the current keyboard source read back
   * (absent when unreadable), the frontmost application, and the clock.
   */
  datatype Os = Os(
    enabledSources: set<string>,
    selectStatus: int,
    currentSource: Option<string>,
    frontmostApp: Option<string>,
    now: int)

  /** `SwitchLogEntry`; `id` is the entry's UUID. */
  datatype LogEntry = LogEntry(
    id: nat,
    timestamp: int,
    appBundleID: string,
    inputSourceID: string,
    success: bool,
    message: string)

  /**
   * The service's state: its published fields, the `observation` latch as
   * `started`, and the supply of fresh UUIDs.
   */
  datatype Engine = Engine(
    currentAppBundleID: string,
    currentInputSourceID: string,
    lastSwitchAt: Option<int>,
    lastSwitchSignal: nat,
    lastError: Option<string>,
    logs: seq<LogEntry>,
    started: bool,
    nextToken: nat)

  /** Result of `switchInputSource`: the new state, the Bool it returns, and the ids passed to select. */
  datatype SwitchResult = SwitchResult(engine: Engine, ok: bool, selects: seq<string>)

  /** Result of handling one event: the new state and the ids passed to select. */
  datatype Step = Step(engine: Engine, selects: seq<string>)

  /** Result of `start(with:)`: the new state and whether an observer was registered. */
  datatype StartResult = StartResult(engine: Engine, subscribed: bool)

  function Min(a: nat, b: nat): nat {
    if a <= b then a else b
  }

  /** A freshly constructed service: empty context, no switch yet, no error, empty log, not started. */
  function Initial(): (r: Engine)
    ensures r.currentAppBundleID == "" && r.currentInputSourceID == ""
    ensures r.lastSwitchAt.None? && r.lastError.None?
    ensures r.logs == [] && !r.started
    ensures Valid(r)
  {
    Engine("", "", None, 0, None, [], false, 1)
  }

  /**
   * What every operation keeps: the log holds at most 80 entries, and every
   * UUID handed out so far (the switch signal, the log entry ids) is distinct
   * and below the counter.
   */
  predicate Valid(e: Engine) {
    && |e.logs| <= LogCapacity
    && e.lastSwitchSignal < e.nextToken
    && (forall i :: 0 <= i < |e.logs| ==> e.logs[i].id < e.nextToken)
    && (forall i, j :: 0 <= i < j < |e.logs| ==> e.logs[i].id != e.logs[j].id)
  }

  /** `after` is `before` with one entry inserted at the front and the overflow cut off. */
  predicate OneEntryAdded(before: seq<LogEntry>, after: seq<LogEntry>) {
    && after != []
    && |after| == Min(|before| + 1, LogCapacity)
    && after[1..] == before[..Min(|before|, LogCapacity - 1)]
  }

  // ---------------------------------------------------------------------------
  // Operations

  /** `refreshCurrentContext()`: re-reads the frontmost app and the current source; unreadable means "". */
  function RefreshCurrentContext(e: Engine, os: Os): (r: Engine)
    ensures r.currentAppBundleID == os.frontmostApp.GetOr("")
    ensures r.currentInputSourceID == os.currentSource.GetOr("")
    ensures r.(currentAppBundleID := e.currentAppBundleID, currentInputSourceID := e.currentInputSourceID) == e
  {
    e.(currentAppBundleID := os.frontmostApp.GetOr(""), currentInputSourceID := os.currentSource.GetOr(""))
  }

  /** `start(with:)`: the first call refreshes the context and subscribes; later calls do nothing. */
  function Start(e: Engine, os: Os): (r: StartResult)
    ensures r.subscribed <==> !e.started
    ensures r.engine.started
    ensures e.started ==> r.engine == e
    ensures !e.started ==> r.engine == RefreshCurrentContext(e, os).(started := true)
  {
    if e.started then StartResult(e, false)
    else StartResult(RefreshCurrentContext(e, os).(started := true), true)
  }

  /** `clearLogs()`. */
  function ClearLogs(e: Engine): (r: Engine)
    ensures r.logs == []
    ensures r.(logs := e.logs) == e
    ensures Valid(e) ==> Valid(r)
  {
    e.(logs := [])
  }

  /** `addLog`: inserts a fresh entry at the front and keeps the 80 newest. */
  function AddLog(e: Engine, appBundleID: string, inputSourceID: string, success: bool, message: string, now: int): (r: Engine)
    ensures OneEntryAdded(e.logs, r.logs)
    ensures r.logs[0] == LogEntry(e.nextToken, now, appBundleID, inputSourceID, success, message)
    ensures r.(logs := e.logs, nextToken := e.nextToken) == e
    ensures Valid(e) ==> Valid(r)
  {
    var entry := LogEntry(e.nextToken, now, appBundleID, inputSourceID, success, message);
    var inserted := [entry] + e.logs;
    var logs := if |inserted| > LogCapacity then inserted[..LogCapacity] else inserted;
    assert logs[1..] == e.logs[..Min(|e.logs|, LogCapacity - 1)];
    e.(logs := logs, nextToken := e.nextToken + 1)
  }

  /**
   * `switchInputSource(sourceID:)`, the single place that calls the OS.
   * A blank id fails before any OS call and changes nothing; an id that no
   * enabled source has fails and records an error; a non-zero select status
   * fails and records an error; success stamps the switch, issues a fresh
   * signal, reads the current source back and clears the error.
   */
  function SwitchInputSource(e: Engine, os: Os, sourceID: string): (r: SwitchResult)
    ensures |r.selects| <= 1
    ensures r.selects != [] <==> Trim(sourceID) != "" && Trim(sourceID) in os.enabledSources
    ensures r.selects != [] ==> r.selects[0] == Trim(sourceID)
    ensures r.ok <==> r.selects != [] && os.selectStatus == NoErr
    ensures Trim(sourceID) == "" ==> r.engine == e
    ensures !r.ok ==> r.engine.(lastError := e.lastError) == e
    ensures Trim(sourceID) != "" && Trim(sourceID) !in os.enabledSources ==>
      r.engine.lastError == Some(NotFoundMessage(Trim(sourceID)))
    ensures r.selects != [] && !r.ok ==> r.engine.lastError == Some(StatusMessage(os.selectStatus))
    ensures r.ok ==>
      && r.engine.lastError == None
      && r.engine.lastSwitchAt == Some(os.now)
      && r.engine.currentInputSourceID == os.currentSource.GetOr(Trim(sourceID))
      && r.engine.currentAppBundleID == e.currentAppBundleID
      && r.engine.logs == e.logs
      && r.engine.started == e.started
    ensures r.ok && Valid(e) ==> r.engine.lastSwitchSignal != e.lastSwitchSignal
    ensures Valid(e) ==> Valid(r.engine)
  {
    var trimmed := Trim(sourceID);
    if trimmed == "" then
      SwitchResult(e, false, [])
    else if trimmed !in os.enabledSources then
      SwitchResult(e.(lastError := Some(NotFoundMessage(trimmed))), false, [])
    else if os.selectStatus != NoErr then
      SwitchResult(e.(lastError := Some(StatusMessage(os.selectStatus))), false, [trimmed])
    else
      SwitchResult(
        e.(lastSwitchAt := Some(os.now),
           lastSwitchSignal := e.nextToken,
           nextToken := e.nextToken + 1,
           currentInputSourceID := os.currentSource.GetOr(trimmed),
           lastError := None),
        true, [trimmed])
  }

  /**
   * Logs the outcome of one switch attempt, as the lock and the rule branches
   * both do: on success the engine is put on `target` as written and
   * `okMessage` is logged; on failure `lastError` is logged, or `failMessage`
   * when there is none.
   */
  function LogAttempt(sw: SwitchResult, os: Os, bundleID: string, target: string, okMessage: string, failMessage: string): (r: Step)
    ensures r.selects == sw.selects
    ensures OneEntryAdded(sw.engine.logs, r.engine.logs)
    ensures r.engine.logs[0].success == sw.ok
    ensures r.engine.logs[0].appBundleID == bundleID && r.engine.logs[0].inputSourceID == target
    ensures r.engine.lastError == sw.engine.lastError
    ensures sw.ok ==> r.engine.currentInputSourceID == target && r.engine.logs[0].message == okMessage
    ensures !sw.ok ==>
      && r.engine.currentInputSourceID == sw.engine.currentInputSourceID
      && r.engine.logs[0].message == sw.engine.lastError.GetOr(failMessage)
    ensures r.engine.currentAppBundleID == sw.engine.currentAppBundleID && r.engine.started == sw.engine.started
    ensures r.engine.lastSwitchAt == sw.engine.lastSwitchAt && r.engine.lastSwitchSignal == sw.engine.lastSwitchSignal
    ensures Valid(sw.engine) ==> Valid(r.engine)
  {
    if sw.ok then
      Step(AddLog(sw.engine.(currentInputSourceID := target), bundleID, target, true, okMessage, os.now), sw.selects)
    else
      Step(AddLog(sw.engine, bundleID, target, false, sw.engine.lastError.GetOr(failMessage), os.now), sw.selects)
  }

  /** A skip outcome: refresh the current source from the OS and log a successful entry carrying it. */
  function SkipAndLog(e: Engine, os: Os, bundleID: string, message: string): (r: Step)
    ensures r.selects == []
    ensures OneEntryAdded(e.logs, r.engine.logs)
    ensures r.engine.currentInputSourceID == os.currentSource.GetOr(e.currentInputSourceID)
    ensures r.engine.logs[0] == LogEntry(e.nextToken, os.now, bundleID, r.engine.currentInputSourceID, true, message)
    ensures r.engine.lastError == e.lastError
    ensures r.engine.currentAppBundleID == e.currentAppBundleID && r.engine.started == e.started
    ensures r.engine.lastSwitchAt == e.lastSwitchAt && r.engine.lastSwitchSignal == e.lastSwitchSignal
    ensures Valid(e) ==> Valid(r.engine)
  {
    var e' := e.(currentInputSourceID := os.currentSource.GetOr(e.currentInputSourceID));
    Step(AddLog(e', bundleID, e'.currentInputSourceID, true, message, os.now), [])
  }

  /** The global-lock branch of `handleActivation`, after the bundle id has been recorded. */
  function HandleLocked(e: Engine, st: Store, os: Os, bundleID: string): (r: Step)
    ensures |r.selects| <= 1
    ensures r.engine.currentAppBundleID == e.currentAppBundleID
    ensures r.engine.logs == e.logs || OneEntryAdded(e.logs, r.engine.logs)
    ensures r.engine.started == e.started
    ensures r.engine.lastSwitchAt != e.lastSwitchAt || r.engine.lastSwitchSignal != e.lastSwitchSignal ==>
      r.selects != [] && os.selectStatus == NoErr
    ensures Valid(e) ==> Valid(r.engine)
  {
    var target := st.lockedInputSourceID;
    if target == "" then Step(e, [])
    else if e.currentInputSourceID != target then
      LogAttempt(SwitchInputSource(e, os, target), os, bundleID, target, LockAppliedMessage, LockFailedMessage)
    else
      Step(AddLog(e, bundleID, target, true, LockHeldMessage, os.now), [])
  }

  /** The rule-driven branch of `handleActivation`, for an enabled, unlocked store. */
  function HandleRules(e: Engine, st: Store, os: Os, bundleID: string): (r: Step)
    ensures |r.selects| <= 1
    ensures r.engine.currentAppBundleID == e.currentAppBundleID
    ensures r.engine.logs == e.logs || OneEntryAdded(e.logs, r.engine.logs)
    ensures r.engine.started == e.started
    ensures r.engine.lastSwitchAt != e.lastSwitchAt || r.engine.lastSwitchSignal != e.lastSwitchSignal ==>
      r.selects != [] && os.selectStatus == NoErr
    ensures Valid(e) ==> Valid(r.engine)
  {
    if !ShouldHandle(st, bundleID) then SkipAndLog(e, os, bundleID, OutsideFilterMessage)
    else match MappingFor(st, bundleID)
      case None => SkipAndLog(e, os, bundleID, NoRuleMessage)
      case Some(m) => LogAttempt(SwitchInputSource(e, os, m.inputSourceID), os, bundleID, m.inputSourceID, SwitchedMessage, SwitchFailedMessage)
  }

  /**
   * `handleActivation`: one activation notification (its bundle id, absent
   * when the notification carries none) under a store snapshot.
   */
  function HandleActivation(e: Engine, st: Store, os: Os, bundleID: Option<string>): (r: Step)
    ensures |r.selects| <= 1
    ensures bundleID.None? ==> r == Step(e, [])
    ensures bundleID.Some? ==> r.engine.currentAppBundleID == bundleID.value
    ensures r.engine.logs == e.logs || OneEntryAdded(e.logs, r.engine.logs)
    ensures r.engine.started == e.started
    ensures r.engine.lastSwitchAt != e.lastSwitchAt || r.engine.lastSwitchSignal != e.lastSwitchSignal ==>
      r.selects != [] && os.selectStatus == NoErr
    ensures Valid(e) ==> Valid(r.engine)
  {
    match bundleID
    case None => Step(e, [])
    case Some(b) =>
      var e' := e.(currentAppBundleID := b);
      if st.isGlobalLocked then HandleLocked(e', st, os, b)
      else if !st.isEnabled then Step(e', [])
      else HandleRules(e', st, os, b)
  }

  /** One delivered notification: the store and OS as they are when it arrives, and its bundle id. */
  datatype Activation = Activation(store: Store, os: Os, bundleID: Option<string>)

  /** Events are handled one after another in delivery order; the select calls are concatenated. */
  function Run(e: Engine, events: seq<Activation>): (r: Step)
    ensures |r.selects| <= |events|
    ensures |r.engine.logs| <= |e.logs| + |events|
    ensures Valid(e) ==> Valid(r.engine)
    decreases |events|
  {
    if events == [] then Step(e, [])
    else
      var first := HandleActivation(e, events[0].store, events[0].os, events[0].bundleID);
      var rest := Run(first.engine, events[1..]);
      Step(rest.engine, first.selects + rest.selects)
  }
}

=== FILE: switcher_properties.dfy ===
/** Properties of the switching engine that span a branch of the decision or several calls. */
module SwitcherProperties {
  import opened Optional
  import opened Text
  import opened MappingStore
  import opened InputSwitcherService
  import opened MappingStoreProperties

  // ---------------------------------------------------------------------------
  // switchInputSource and the log

  /** The status code in a select failure message can be read back: different codes give different messages. */
  lemma StatusMessageIdentifiesStatus(a: int, b: int)
    requires StatusMessage(a) == StatusMessage(b)
    ensures a == b
  {
    var prefix := "切换失败，状态码：";
    assert StatusMessage(a)[|prefix|..] == DecimalString(a);
    assert StatusMessage(b)[|prefix|..] == DecimalString(b);
    DecimalInjective(a, b);
  }

  /** Manual switches are not deduplicated: repeating one that selects issues a second select. */
  lemma RepeatedSwitchSelectsAgain(e: Engine, os: Os, sourceID: string)
    requires Trim(sourceID) != "" && Trim(sourceID) in os.enabledSources
    ensures SwitchInputSource(e, os, sourceID).selects == [Trim(sourceID)]
    ensures SwitchInputSource(SwitchInputSource(e, os, sourceID).engine, os, sourceID).selects == [Trim(sourceID)]
  {
  }

  /** Entries stay newest first: after two insertions the earlier one sits behind the later one. */
  lemma LogIsNewestFirst(e: Engine, a1: string, s1: string, ok1: bool, m1: string, t1: int,
                                    a2: string, s2: string, ok2: bool, m2: string, t2: int)
    ensures var e1 := AddLog(e, a1, s1, ok1, m1, t1);
      var e2 := AddLog(e1, a2, s2, ok2, m2, t2);
      && e2.logs[0] == LogEntry(e1.nextToken, t2, a2, s2, ok2, m2)
      && e2.logs[1] == e1.logs[0]
      && e2.logs[1] == LogEntry(e.nextToken, t1, a1, s1, ok1, m1)
  {
    var e1 := AddLog(e, a1, s1, ok1, m1, t1);
    var e2 := AddLog(e1, a2, s2, ok2, m2, t2);
    assert e2.logs[1..][0] == e1.logs[..Min(|e1.logs|, LogCapacity - 1)][0];
  }

  /** After clearing, the next insertion leaves exactly that entry. */
  lemma ClearThenAddLog(e: Engine, a: string, s: string, ok: bool, m: string, t: int)
    ensures AddLog(ClearLogs(e), a, s, ok, m, t).logs == [LogEntry(e.nextToken, t, a, s, ok, m)]
  {
  }

  /**
   * However many notifications arrive after `start(with:)`, the log never
   * holds more than 80 entries.
   */
  lemma LogNeverExceedsCapacity(os: Os, events: seq<Activation>)
    ensures var started := Start(Initial(), os).engine;
      && |Run(started, events).engine.logs| <= LogCapacity
      && |Run(started, events).selects| <= |events|
  {
  }

  /** Running no notification changes nothing; running one is handling it. */
  lemma RunSingle(e: Engine, a: Activation)
    ensures Run(e, []) == Step(e, [])
    ensures Run(e, [a]) == HandleActivation(e, a.store, a.os, a.bundleID)
  {
    var first := HandleActivation(e, a.store, a.os, a.bundleID);
    assert [a][1..] == [];
    assert first.selects + [] == first.selects;
  }

  /**
   * Notifications are handled in delivery order: running `xs` and then `ys`
   * is running `xs + ys`, and the select calls of the two runs follow each other.
   */
  lemma {:induction false} RunConcat(e: Engine, xs: seq<Activation>, ys: seq<Activation>)
    ensures var a := Run(e, xs);
      var b := Run(a.engine, ys);
      Run(e, xs + ys) == Step(b.engine, a.selects + b.selects)
    decreases |xs|
  {
    if xs == [] {
      assert xs + ys == ys;
    } else {
      var first := HandleActivation(e, xs[0].store, xs[0].os, xs[0].bundleID);
      assert (xs + ys)[0] == xs[0];
      assert (xs + ys)[1..] == xs[1..] + ys;
      RunConcat(first.engine, xs[1..], ys);
      var a := Run(first.engine, xs[1..]);
      var b := Run(a.engine, ys);
      assert first.selects + (a.selects + b.selects) == (first.selects + a.selects) + b.selects;
    }
  }

  /** `start(with:)` subscribes at most once: a second call neither subscribes nor changes anything. */
  lemma StartSubscribesOnce(e: Engine, os1: Os, os2: Os)
    ensures var first := Start(e, os1);
      Start(first.engine, os2) == StartResult(first.engine, false)
  {
  }

  // ---------------------------------------------------------------------------
  // handleActivation, branch by branch

  /** A notification without a bundle id is ignored entirely. */
  lemma NoBundleIDIsIgnored(e: Engine, st: Store, os: Os)
    ensures HandleActivation(e, st, os, None) == Step(e, [])
  {
  }

  /** Locked with an empty target: no select, no log; only the current app changes. */
  lemma LockWithoutTarget(e: Engine, st: Store, os: Os, bundleID: string)
    requires st.isGlobalLocked && st.lockedInputSourceID == ""
    ensures HandleActivation(e, st, os, Some(bundleID)) == Step(e.(currentAppBundleID := bundleID), [])
  {
  }

  /** Locked and already on the target: no select, one successful "lock held" entry. */
  lemma LockHeld(e: Engine, st: Store, os: Os, bundleID: string)
    requires st.isGlobalLocked && st.lockedInputSourceID != ""
    requires e.currentInputSourceID == st.lockedInputSourceID
    ensures var r := HandleActivation(e, st, os, Some(bundleID));
      && r.selects == []
      && OneEntryAdded(e.logs, r.engine.logs)
      && r.engine.logs[0].success
      && r.engine.logs[0].message == LockHeldMessage
      && r.engine.logs[0].appBundleID == bundleID
      && r.engine.logs[0].inputSourceID == st.lockedInputSourceID
      && r.engine.currentInputSourceID == e.currentInputSourceID
      && r.engine.lastError == e.lastError
      && r.engine.lastSwitchAt == e.lastSwitchAt && r.engine.lastSwitchSignal == e.lastSwitchSignal
  {
  }

  /**
   * Locked and not on the target: exactly one switch attempt for the target,
   * whose outcome is the logged success flag; on success the engine is on the target.
   */
  lemma LockSwitches(e: Engine, st: Store, os: Os, bundleID: string)
    requires st.isGlobalLocked && st.lockedInputSourceID != ""
    requires e.currentInputSourceID != st.lockedInputSourceID
    ensures var target := st.lockedInputSourceID;
      var r := HandleActivation(e, st, os, Some(bundleID));
      && (r.selects != [] <==> Trim(target) != "" && Trim(target) in os.enabledSources)
      && (r.selects != [] ==> r.selects == [Trim(target)])
      && OneEntryAdded(e.logs, r.engine.logs)
      && (r.engine.logs[0].success <==> r.selects != [] && os.selectStatus == NoErr)
      && r.engine.logs[0].inputSourceID == target
      && (r.engine.logs[0].success ==>
            && r.engine.currentInputSourceID == target
            && r.engine.lastError == None
            && r.engine.logs[0].message == LockAppliedMessage)
      && (!r.engine.logs[0].success ==>
            && r.engine.currentInputSourceID == e.currentInputSourceID
            && r.engine.lastSwitchAt == e.lastSwitchAt && r.engine.lastSwitchSignal == e.lastSwitchSignal
            && r.engine.logs[0].message == r.engine.lastError.GetOr(LockFailedMessage))
  {
    var e' := e.(currentAppBundleID := bundleID);
    var sw := SwitchInputSource(e', os, st.lockedInputSourceID);
    assert HandleActivation(e, st, os, Some(bundleID)) == HandleLocked(e', st, os, bundleID);
  }

  /** Under the lock the enabled flag, the filter and the rules are never consulted. */
  lemma LockIgnoresRules(e: Engine, st: Store, other: Store, os: Os, bundleID: Option<string>)
    requires st.isGlobalLocked && other.isGlobalLocked
    requires st.lockedInputSourceID == other.lockedInputSourceID
    ensures HandleActivation(e, st, os, bundleID) == HandleActivation(e, other, os, bundleID)
  {
  }

  /** After the lock path reports success, the next notification under the same lock selects nothing. */
  lemma LockConverges(e: Engine, st: Store, os1: Os, os2: Os, b1: string, b2: string)
    requires st.isGlobalLocked && st.lockedInputSourceID != ""
    ensures var r1 := HandleActivation(e, st, os1, Some(b1));
      var r2 := HandleActivation(r1.engine, st, os2, Some(b2));
      && OneEntryAdded(e.logs, r1.engine.logs)
      && (r1.engine.logs[0].success ==>
            && r2.selects == []
            && OneEntryAdded(r1.engine.logs, r2.engine.logs)
            && r2.engine.logs[0].message == LockHeldMessage)
  {
    var r1 := HandleActivation(e, st, os1, Some(b1));
    if e.currentInputSourceID == st.lockedInputSourceID {
      LockHeld(e, st, os1, b1);
    } else {
      LockSwitches(e, st, os1, b1);
    }
    if r1.engine.logs[0].success {
      LockHeld(r1.engine, st, os2, b2);
    }
  }

  /**
   * Turning the lock on from the settings captures the engine's current
   * source; every following notification then holds the lock without a select.
   */
  lemma CapturedLockHolds(e: Engine, st: Store, os: Os, bundleID: string)
    requires Trim(e.currentInputSourceID) != "" && Trim(e.currentInputSourceID) == e.currentInputSourceID
    ensures var locked := SetGlobalLock(st, true, e.currentInputSourceID);
      var r := HandleActivation(e, locked, os, Some(bundleID));
      && r.selects == []
      && OneEntryAdded(e.logs, r.engine.logs)
      && r.engine.logs[0].message == LockHeldMessage
  {
    var cur := e.currentInputSourceID;
    LockCapturesTrimmedSource(st, cur);
    LockHeld(e, st.(isGlobalLocked := true, lockedInputSourceID := cur), os, bundleID);
  }

  lemma LockCapturesTrimmedSource(st: Store, cur: string)
    requires Trim(cur) != "" && Trim(cur) == cur
    ensures SetGlobalLock(st, true, cur) == st.(isGlobalLocked := true, lockedInputSourceID := cur)
    ensures cur != ""
  {
  }

  /** Unlocked and disabled: no select, no log; only the current app changes. */
  lemma DisabledIsInert(e: Engine, st: Store, os: Os, bundleID: string)
    requires !st.isGlobalLocked && !st.isEnabled
    ensures HandleActivation(e, st, os, Some(bundleID)) == Step(e.(currentAppBundleID := bundleID), [])
  {
  }

  /** Enabled but outside the filter: no select, one successful skip entry carrying the read-back source. */
  lemma OutsideFilterSkips(e: Engine, st: Store, os: Os, bundleID: string)
    requires !st.isGlobalLocked && st.isEnabled && !ShouldHandle(st, bundleID)
    ensures var r := HandleActivation(e, st, os, Some(bundleID));
      && r.selects == []
      && OneEntryAdded(e.logs, r.engine.logs)
      && r.engine.logs[0].success
      && r.engine.logs[0].message == OutsideFilterMessage
      && r.engine.currentInputSourceID == os.currentSource.GetOr(e.currentInputSourceID)
      && r.engine.logs[0].inputSourceID == r.engine.currentInputSourceID
      && r.engine.lastError == e.lastError
      && r.engine.lastSwitchAt == e.lastSwitchAt && r.engine.lastSwitchSignal == e.lastSwitchSignal
  {
  }

  /** Enabled and inside the filter but without a rule: no select, one successful skip entry. */
  lemma NoRuleSkips(e: Engine, st: Store, os: Os, bundleID: string)
    requires !st.isGlobalLocked && st.isEnabled && ShouldHandle(st, bundleID)
    requires forall k :: 0 <= k < |st.mappings| ==> st.mappings[k].appBundleID != bundleID
    ensures var r := HandleActivation(e, st, os, Some(bundleID));
      && r.selects == []
      && OneEntryAdded(e.logs, r.engine.logs)
      && r.engine.logs[0].success
      && r.engine.logs[0].message == NoRuleMessage
      && r.engine.currentInputSourceID == os.currentSource.GetOr(e.currentInputSourceID)
      && r.engine.logs[0].inputSourceID == r.engine.currentInputSourceID
      && r.engine.lastError == e.lastError
      && r.engine.lastSwitchAt == e.lastSwitchAt && r.engine.lastSwitchSignal == e.lastSwitchSignal
  {
    assert MappingFor(st, bundleID).None?;
  }

  /**
   * Enabled, inside the filter and with a rule: exactly one switch attempt
   * for the rule's source, and no deduplication against the current source.
   * On success the engine is on the rule's source as written; on failure the
   * entry carries `lastError`, or the generic message when there is none.
   */
  lemma RuleSwitches(e: Engine, st: Store, os: Os, bundleID: string)
    requires !st.isGlobalLocked && st.isEnabled && ShouldHandle(st, bundleID)
    requires MappingFor(st, bundleID).Some?
    ensures var m := MappingFor(st, bundleID).value;
      var r := HandleActivation(e, st, os, Some(bundleID));
      && (r.selects != [] <==> Trim(m.inputSourceID) != "" && Trim(m.inputSourceID) in os.enabledSources)
      && (r.selects != [] ==> r.selects == [Trim(m.inputSourceID)])
      && OneEntryAdded(e.logs, r.engine.logs)
      && (r.engine.logs[0].success <==> r.selects != [] && os.selectStatus == NoErr)
      && r.engine.logs[0].inputSourceID == m.inputSourceID
      && (r.engine.logs[0].success ==>
            && r.engine.currentInputSourceID == m.inputSourceID
            && r.engine.lastError == None
            && r.engine.logs[0].message == SwitchedMessage)
      && (!r.engine.logs[0].success ==>
            && r.engine.currentInputSourceID == e.currentInputSourceID
            && r.engine.lastSwitchAt == e.lastSwitchAt && r.engine.lastSwitchSignal == e.lastSwitchSignal
            && r.engine.logs[0].message == r.engine.lastError.GetOr(SwitchFailedMessage))
  {
    var e' := e.(currentAppBundleID := bundleID);
    assert HandleActivation(e, st, os, Some(bundleID)) == HandleRules(e', st, os, bundleID);
  }

  /**
   * A rule whose source id is blank fails without touching `lastError`, so
   * the logged failure message is whatever error an earlier switch left behind.
   */
  lemma BlankRuleLogsStaleError(e: Engine, st: Store, os: Os, bundleID: string)
    requires !st.isGlobalLocked && st.isEnabled && ShouldHandle(st, bundleID)
    requires MappingFor(st, bundleID).Some? && Trim(MappingFor(st, bundleID).value.inputSourceID) == ""
    ensures var r := HandleActivation(e, st, os, Some(bundleID));
      && r.selects == []
      && OneEntryAdded(e.logs, r.engine.logs)
      && !r.engine.logs[0].success
      && r.engine.lastError == e.lastError
      && r.engine.logs[0].message == e.lastError.GetOr(SwitchFailedMessage)
  {
    RuleSwitches(e, st, os, bundleID);
  }

  /** The mapped-rule scenario's store: enabled, unlocked, every app in scope, Terminal mapped to the US layout. */
  predicate TerminalSetup(st: Store) {
    && !st.isGlobalLocked && st.isEnabled && st.filterMode == All
    && st.mappings == [Mapping(0, "com.apple.Terminal", "com.apple.keylayout.US")]
  }

  /**
   * The mapped-rule scenario: Terminal becomes active while a pinyin source
   * is current; the US layout is enabled and selection succeeds. Exactly one
   * select is issued, for the US layout, and the engine ends on it.
   */
  lemma TerminalScenario(e: Engine, st: Store, os: Os)
    requires TerminalSetup(st)
    requires e.currentInputSourceID == "com.apple.inputmethod.SCIM.ITABC"
    requires "com.apple.keylayout.US" in os.enabledSources && os.selectStatus == NoErr
    ensures var r := HandleActivation(e, st, os, Some("com.apple.Terminal"));
      && r.selects == ["com.apple.keylayout.US"]
      && r.engine.currentInputSourceID == "com.apple.keylayout.US"
  {
    UsLayoutIsTrimmed();
    TerminalRuleFound(st);
    var e' := e.(currentAppBundleID := "com.apple.Terminal");
    var sw := SwitchInputSource(e', os, "com.apple.keylayout.US");
    assert sw.ok && sw.selects == ["com.apple.keylayout.US"];
    assert HandleActivation(e, st, os, Some("com.apple.Terminal"))
        == LogAttempt(sw, os, "com.apple.Terminal", "com.apple.keylayout.US", SwitchedMessage, SwitchFailedMessage);
  }

  /** In the same scenario, one successful "switched" entry is logged. */
  lemma TerminalScenarioLog(e: Engine, st: Store, os: Os)
    requires TerminalSetup(st)
    requires "com.apple.keylayout.US" in os.enabledSources && os.selectStatus == NoErr
    ensures var r := HandleActivation(e, st, os, Some("com.apple.Terminal"));
      && OneEntryAdded(e.logs, r.engine.logs)
      && r.engine.logs[0].success
      && r.engine.logs[0].message == SwitchedMessage
  {
    UsLayoutIsTrimmed();
    TerminalRuleFound(st);
    var e' := e.(currentAppBundleID := "com.apple.Terminal");
    var sw := SwitchInputSource(e', os, "com.apple.keylayout.US");
    assert sw.ok && sw.selects == ["com.apple.keylayout.US"];
    assert HandleActivation(e, st, os, Some("com.apple.Terminal"))
        == LogAttempt(sw, os, "com.apple.Terminal", "com.apple.keylayout.US", SwitchedMessage, SwitchFailedMessage);
  }

  lemma TerminalRuleFound(st: Store)
    requires TerminalSetup(st)
    ensures ShouldHandle(st, "com.apple.Terminal")
    ensures MappingFor(st, "com.apple.Terminal") == Some(st.mappings[0])
    ensures MappingFor(st, "com.apple.Terminal").value.inputSourceID == "com.apple.keylayout.US"
  {
    MappingForIsFirst(st, "com.apple.Terminal", 0);
  }

  lemma UsLayoutIsTrimmed()
    ensures Trim("com.apple.keylayout.US") == "com.apple.keylayout.US"
  {
    var us := "com.apple.keylayout.US";
    assert !IsWhitespace(us[0]) && !IsWhitespace(us[|us| - 1]);
    TrimPadded([], us, []);
    assert [] + us + [] == us;
  }
}

=== FILE: text.dfy ===
/**
 * String helpers the switcher relies on: trimming with Foundation's
 * whitespace-and-newline character set, and the decimal rendering Swift's
 * string interpolation gives an integer status code.
 */
module Text {

  /** The Unicode White_Space characters, which `.whitespacesAndNewlines` removes. */
  predicate IsWhitespace(c: char) {
    || ('\U{0009}' <= c <= '\U{000D}')
    || c == ' '
    || c == '\U{0085}'
    || c == '\U{00A0}'
    || c == '\U{1680}'
    || ('\U{2000}' <= c <= '\U{200A}')
    || c == '\U{2028}'
    || c == '\U{2029}'
    || c == '\U{202F}'
    || c == '\U{205F}'
    || c == '\U{3000}'
  }

  /** Empty or whitespace only: exactly the strings that trim to "". */
  predicate IsBlank(s: string) {
    forall i :: 0 <= i < |s| ==> IsWhitespace(s[i])
  }

  /** Drops the leading whitespace: the result is a suffix that is empty or starts with a non-space. */
  function TrimStart(s: string): (r: string)
    ensures |r| <= |s| && r == s[|s| - |r|..]
    ensures r == [] || !IsWhitespace(r[0])
    decreases |s|
  {
    if |s| == 0 || !IsWhitespace(s[0]) then s else TrimStart(s[1..])
  }

  /** Drops the trailing whitespace: the result is a prefix that is empty or ends with a non-space. */
  function TrimEnd(s: string): (r: string)
    ensures |r| <= |s| && r == s[..|r|]
    ensures r == [] || !IsWhitespace(r[|r| - 1])
    decreases |s|
  {
    if |s| == 0 || !IsWhitespace(s[|s| - 1]) then s else TrimEnd(s[..|s| - 1])
  }

  /** What TrimStart drops is whitespace only. */
  lemma {:induction false} TrimStartDropsBlank(s: string)
    ensures IsBlank(s[..|s| - |TrimStart(s)|])
    decreases |s|
  {
    if |s| > 0 && IsWhitespace(s[0]) {
      var r := TrimStart(s[1..]);
      assert TrimStart(s) == r;
      TrimStartDropsBlank(s[1..]);
      var k := |s| - 1 - |r|;
      forall i | 0 <= i < k + 1
        ensures IsWhitespace(s[i])
      {
        if i > 0 {
          assert s[i] == s[1..][..k][i - 1];
        }
      }
      assert s[..|s| - |TrimStart(s)|] == s[..k + 1];
    }
  }

  /** What TrimEnd drops is whitespace only. */
  lemma {:induction false} TrimEndDropsBlank(s: string)
    ensures IsBlank(s[|TrimEnd(s)|..])
    decreases |s|
  {
    if |s| > 0 && IsWhitespace(s[|s| - 1]) {
      var r := TrimEnd(s[..|s| - 1]);
      assert TrimEnd(s) == r;
      TrimEndDropsBlank(s[..|s| - 1]);
      forall i | |r| <= i < |s|
        ensures IsWhitespace(s[i])
      {
        if i < |s| - 1 {
          assert s[i] == s[..|s| - 1][|r|..][i - |r|];
        }
      }
    }
  }

  /** `trimmingCharacters(in: .whitespacesAndNewlines)`: a substring that is empty or has non-space ends. */
  function Trim(s: string): (r: string)
    ensures |r| <= |s|
    ensures r == [] || (!IsWhitespace(r[0]) && !IsWhitespace(r[|r| - 1]))
  {
    TrimEnd(TrimStart(s))
  }

  /** A string trims to "" exactly when it is blank. */
  lemma TrimEmptyIffBlank(s: string)
    ensures Trim(s) == [] <==> IsBlank(s)
  {
    var t := TrimStart(s);
    TrimStartDropsBlank(s);
    if t == [] {
      assert s[..|s|] == s;
    } else {
      assert s[|s| - |t|] == t[0];
      TrimEndDropsBlank(t);
    }
  }

  /** Leading whitespace in front of a string that starts with a non-space is exactly what TrimStart drops. */
  lemma {:induction false} TrimStartPadded(a: string, t: string)
    requires IsBlank(a)
    requires t == [] || !IsWhitespace(t[0])
    ensures TrimStart(a + t) == t
    decreases |a|
  {
    if a != [] {
      assert (a + t)[1..] == a[1..] + t;
      TrimStartPadded(a[1..], t);
    } else {
      assert a + t == t;
    }
  }

  /** Trailing whitespace behind a string that ends with a non-space is exactly what TrimEnd drops. */
  lemma {:induction false} TrimEndPadded(t: string, b: string)
    requires IsBlank(b)
    requires t == [] || !IsWhitespace(t[|t| - 1])
    ensures TrimEnd(t + b) == t
    decreases |b|
  {
    if b != [] {
      assert (t + b)[..|t + b| - 1] == t + b[..|b| - 1];
      TrimEndPadded(t, b[..|b| - 1]);
    } else {
      assert t + b == t;
    }
  }

  /**
   * Reference characterisation of Trim: surrounding a core whose ends are not
   * whitespace with blank padding on both sides trims back to that core.
   */
  lemma TrimPadded(a: string, m: string, b: string)
    requires IsBlank(a) && IsBlank(b)
    requires m == [] || (!IsWhitespace(m[0]) && !IsWhitespace(m[|m| - 1]))
    ensures Trim(a + m + b) == m
  {
    if m == [] {
      assert a + m + b == (a + b) + [];
      TrimStartPadded(a + b, []);
      assert TrimEnd([]) == [];
    } else {
      assert a + m + b == a + (m + b);
      TrimStartPadded(a, m + b);
      TrimEndPadded(m, b);
    }
  }

  /** Trimming twice is trimming once. */
  lemma TrimIdempotent(s: string)
    ensures Trim(Trim(s)) == Trim(s)
  {
    var m := Trim(s);
    TrimPadded([], m, []);
    assert [] + m + [] == m;
  }

  // ---------------------------------------------------------------------------
  // Decimal rendering of integers (Swift's "\(status)")

  predicate IsDigit(c: char) {
    '0' <= c <= '9'
  }

  function DigitChar(d: nat): (c: char)
    requires d < 10
    ensures IsDigit(c)
  {
    ('0' as int + d) as char
  }

  function DigitValue(c: char): nat {
    if IsDigit(c) then c as int - '0' as int else 0
  }

  /** The decimal digits of `n`, most significant first, without leading zeros. */
  function Digits(n: nat): (r: string)
    ensures 1 <= |r|
    ensures forall i :: 0 <= i < |r| ==> IsDigit(r[i])
    decreases n
  {
    if n < 10 then [DigitChar(n)] else Digits(n / 10) + [DigitChar(n % 10)]
  }

  /** Reads a string of digits back as a number (non-digits count as 0). */
  function DigitsValue(s: string): nat
    decreases |s|
  {
    if s == [] then 0 else DigitsValue(s[..|s| - 1]) * 10 + DigitValue(s[|s| - 1])
  }

  lemma {:induction false} DigitsRoundTrip(n: nat)
    ensures DigitsValue(Digits(n)) == n
    decreases n
  {
    if n >= 10 {
      var d := Digits(n / 10);
      assert Digits(n)[..|Digits(n)| - 1] == d;
      DigitsRoundTrip(n / 10);
    }
  }

  /** The decimal rendering of an integer, with a leading '-' when negative. */
  function DecimalString(i: int): (r: string)
    ensures 1 <= |r|
  {
    if i < 0 then "-" + Digits(-i) else Digits(i)
  }

  function ParseDecimal(s: string): int {
    if |s| > 0 && s[0] == '-' then -(DigitsValue(s[1..]) as int) else DigitsValue(s)
  }

  /** The rendering loses nothing: parsing it gives the integer back. */
  lemma DecimalRoundTrip(i: int)
    ensures ParseDecimal(DecimalString(i)) == i
  {
    if i < 0 {
      assert DecimalString(i)[1..] == Digits(-i);
      DigitsRoundTrip(-i);
    } else {
      assert IsDigit(Digits(i)[0]);
      DigitsRoundTrip(i);
    }
  }

  /** Two different integers never render the same. */
  lemma DecimalInjective(i: int, j: int)
    requires DecimalString(i) == DecimalString(j)
    ensures i == j
  {
    DecimalRoundTrip(i);
    DecimalRoundTrip(j);
  }
}
